=== FILE: README.md ===
# Port-activity watcher: a Dafny model

This project models the port-activity watcher of the arkade game-server
tool (`src/watcher.rs`). The watcher reads raw Ethernet frames from one
interface and finds frames addressed to a TCP or UDP port that the caller
watches. It reports each such port at most once per aggregation window.

The model has these parts, one Dafny module each:

- `Ports`: the `PortInfo` descriptor (`TCP(port)` / `UDP(port)` over a `u16`) and its `Display` rendering `"{port}/tcp"` / `"{port}/udp"`.
- `PortParser`: `parse_ports`. It splits the text on commas and tests each element against `^(?i)(\d+)/(tcp|udp)$` with a matcher written by hand over ASCII. It then converts the digits with the checked `u16` conversion.
- `Decimal`, `Text`: the decimal value and rendering of digit strings, `u16::from_str_radix`, and Rust's `str::split` with its inverse join.
- `PortSets`: `PortSet`, two 65536-entry `seq<bool>` vectors, one per protocol, with `default`, `reset` and single-bit writes.
- `Frames`: the header decoding that `process_packet` does through pnet. It reads Ethernet II, then IPv4 (section 3.1 of RFC 791) or IPv6 (section 3 of RFC 8200), then the destination port of TCP (section 3.1 of RFC 9293) or UDP (RFC 768). It is a pure function from `seq<byte>` to `Option<PortInfo>`.
- `Watcher`: the `PortWatcher` record, `new`, `watch`, `unwatch` and `process_packet`. `process_packet` is a pure function `(watcher, frame) -> (watcher, Option<PortInfo>)`.
- `Looper`: the rollover branches of `looper` as a step function over three events: a received frame, carrying the clock reading `t` taken at the rollover test after the frame was processed and its event handed to the callback; a readiness timeout; and a failed read. Time is an integer count of milliseconds.

Header layout assumed, with lengths in octets:

- Ethernet: a 14-octet header, with the EtherType at octets 12-13. 0x0800 is IPv4 and 0x86DD is IPv6.
- IPv4: at least 20 octets. The protocol is at octet 9. The payload starts at 4·IHL, and never before octet 20.
- IPv6: a 40-octet fixed header. The Next Header is at octet 6. Extension headers are not walked.
- Transport: TCP needs at least 20 octets and UDP needs 8. The destination port is octets 2-3, big-endian.

Behaviour of `parse_ports` and `looper` worth noting:

- The pattern allows no whitespace around the tokens, so `" 80/tcp"` does not match and is skipped.
- An element with an unknown protocol does not match either (`"80/sctp"` gives `Ok([])`). It is skipped, not rejected, so the invalid-protocol error branch cannot be reached.
- A port past 65535 fails the whole call with the conversion error.
- After a frame, the window rolls over only when the elapsed time strictly exceeds the window.
- That rollover test runs after the frame has been processed. So with the 5 s window opened at 0 ms, frames at 500 ms and 5500 ms give one event, not two. The next frame after that fires again (`Looper.WindowExampleAcrossRollover`).
- `PortSet` offers only `default` and `reset`; single bits are written directly on its vectors.

## Model

| member | source | states |
|---|---|---|
| Decimal.Render | src/watcher.rs:28-29 | The `{}` rendering of a port is a non-empty ASCII digit string denoting exactly that port, with no leading zero unless the port is 0 |
| Ports.Render | src/watcher.rs:25-32 | The `Display` text of a descriptor is a digit string whose value is the port, with no leading zero unless the port is 0, a slash, and the lower-case protocol name |
| Decimal.ParseU16 | src/watcher.rs:68 | The checked `u16` conversion of a digit string succeeds exactly when its decimal value is below 65536, and then yields that value |
| Decimal.Accumulate | src/watcher.rs:68 | Accumulating digits left to right and failing as soon as the running value leaves `u16` agrees with the whole string's value test; an early overflow already means the whole value is out of range |
| Decimal.ValuePrefixMonotone | src/watcher.rs:68 | A digit string's value is at least the value of any of its prefixes, which is why stopping at the first overflow is sound |
| Text.Split | src/watcher.rs:66 | `split(',')` yields at least one part, even for empty text, and no part contains the separator |
| Text.JoinSplit | src/watcher.rs:66 | Joining the parts of a split with the separator gives back the original text, so splitting loses nothing |
| Text.SplitJoin | src/watcher.rs:66 | Splitting a join of comma-free parts gives back exactly those parts, in order |
| Text.SplitAfterPart | src/watcher.rs:66 | A comma-free prefix followed by a comma is split off as its own first element |
| PortParser.MatchElement | src/watcher.rs:63-67 | A match is exactly a non-empty ASCII digit capture, a slash, and a three-letter `tcp` or `udp` token in any case, and the two captures rebuild the element |
| PortParser.MatchElementComplete | src/watcher.rs:63 | Every digits/slash/protocol-token text matches, with exactly those two captures (the converse of MatchElement) |
| PortParser.ParseElement | src/watcher.rs:67-77 | A non-matching element contributes nothing; a matching one gives the conversion error when its digits exceed 65535 (the model records the digits), otherwise the descriptor whose port is the digits' value and whose protocol is the lowered token |
| PortParser.ParseElements | src/watcher.rs:64-82 | A failure is always the port conversion error, never the invalid-protocol one; on success there are at most as many descriptors as elements |
| PortParser.ParseElementsOutcome | src/watcher.rs:66-82 | The call succeeds exactly when no matching element's digits exceed 65535; otherwise it fails with the conversion error at the first such element (the model records that element's digits) |
| PortParser.SingleElement | src/watcher.rs:66-82 | A one-element list fails, is empty or holds one descriptor exactly as its element does |
| PortParser.ParsePorts | src/watcher.rs:62-83 | The whole call fails only with the conversion error; it succeeds exactly when no comma-separated element that matches the pattern has digits past 65535, and otherwise fails with the conversion error at the first such element (the model records that element's digits) |
| PortParser.SkippedElement | src/watcher.rs:66-67 | A comma-free text that does not match the pattern parses to an empty list |
| PortParser.ParseElementsAppend | src/watcher.rs:64-82 | Parsing a concatenation equals parsing each half and concatenating in order, with the earlier half's error taking precedence |
| PortParser.NonMatchingSkipped | src/watcher.rs:66-67 | An element that does not match, wherever it stands in the list, leaves the result unchanged |
| PortParser.ParsePortsComma | src/watcher.rs:66-82 | Parsing `a,b` with comma-free `a` equals parsing `a` then `b`, results joined in order |
| PortParser.RoundTrip | src/watcher.rs:25-32 | The rendering of any `TCP(p)` or `UDP(p)` parses back to exactly that one descriptor |
| PortParser.RenderMatches | src/watcher.rs:25-32 | A rendering contains no comma and is one matching element whose captures are the decimal port and the lower-case protocol name |
| PortParser.ParseRendered | src/watcher.rs:64-80 | A sequence of renderings, taken as split elements, parses back to the descriptors in order |
| PortParser.RoundTripList | src/watcher.rs:62-83 | The comma-joined rendering of any descriptor list, the empty one included, parses back to the same list in the same order |
| PortParser.CaseInsensitive | src/watcher.rs:63-73 | Any spelling of `tcp`/`udp`, in any letter case, after an in-range digit string gives the one matching descriptor |
| PortParser.ExampleList | src/watcher.rs:62-83 | `"25565/tcp,34197/udp"` parses to `[TCP(25565), UDP(34197)]` in that order |
| PortParser.ExamplesSkipped | src/watcher.rs:63-67 | `""`, `"80/sctp"` and `" 80/tcp"` each parse to an empty list without error |
| PortParser.ExampleUpperCase | src/watcher.rs:63 | `"80/TCP"` parses to `[TCP(80)]` |
| PortParser.ExampleOutOfRange | src/watcher.rs:68 | `"99999/tcp"` fails the whole call with the conversion error (the model records the digits `99999`) |
| PortSets.Default | src/watcher.rs:91-97 | Both vectors have 0x10000 bits and no descriptor is present |
| PortSets.SetBit | src/watcher.rs:133 | Writing a descriptor's bit sets exactly that bit; every other descriptor keeps its bit and the other protocol's vector is unchanged |
| PortSets.Reset | src/watcher.rs:102-105 | After `reset` every bit of both vectors is false and both lengths are unchanged |
| PortSets.ResetIsDefault | src/watcher.rs:94-105 | Resetting a full-size set gives the default set, so reset is idempotent |
| PortSets.Extensionality | src/watcher.rs:86-89 | Two full-size sets holding the same bits for every descriptor are equal |
| PortSets.SetUnchanged | src/watcher.rs:133-141 | Writing a bit to the value it already holds leaves the set unchanged |
| PortSets.SetSet | src/watcher.rs:133-141 | Of two writes to one bit, the later one decides |
| Frames.Decode | src/watcher.rs:146-189 | A destination is found exactly when the EtherType is IPv4 or IPv6, every header up to the transport header fits in the frame, and the protocol number is 6 or 17; it is TCP exactly for 6, and its port is the big-endian pair at octets 2-3 of the transport header at the offset the IP header gives |
| Frames.DecodeAtOffset | src/watcher.rs:146-183 | A frame whose network header names protocol 6 or 17, with a transport header that fits, decodes to TCP or UDP of the big-endian port at octets 2-3 of that header |
| Frames.TransportFromView | src/watcher.rs:153-180 | The destination read from the network layer's payload equals the one read at the transport offset in the whole frame |
| Frames.DecodeBuiltFrame | src/watcher.rs:146-183 | A minimal IPv4 or IPv6 frame built for any destination and source port decodes back to that destination |
| Watcher.New | src/watcher.rs:121-129 | A new watcher keeps the interface name, watches and has reported nothing, starts its window at the current time, and has a 5000 ms window |
| Watcher.Watch | src/watcher.rs:131-136 | `watch(d)` sets d's watch bit; every other watch bit, the other protocol's vector, the reported set and the timestamp are unchanged |
| Watcher.Unwatch | src/watcher.rs:138-143 | `unwatch(d)` clears d's watch bit; every other watch bit, the other protocol's vector, the reported set and the timestamp are unchanged |
| Watcher.Report | src/watcher.rs:154-164 | A destination is returned exactly when it is watched and was not reported, and it is then that destination; afterwards it is reported exactly when it was reported or watched before, no other reported bit changes, and the watch set and timestamp are kept |
| Watcher.ReportOnce | src/watcher.rs:154-164 | A watched, unreported destination is returned, and reporting it a second time returns nothing and changes nothing |
| Watcher.WatchUnwatchInverse | src/watcher.rs:131-143 | `unwatch` undoes `watch` on a port that was not watched, and the reverse holds too; repeating either call changes nothing more |
| Watcher.ProcessPacket | src/watcher.rs:145-193 | An event is returned exactly when the frame decodes to a watched destination not yet reported; it is the decoded destination and only its reported bit is set; otherwise the watcher is returned unchanged; the watch set and timestamp are never touched |
| Watcher.ProcessPacketKeepsReportedWithinWatch | src/watcher.rs:154-183 | Processing a frame never reports a port that is not watched |
| Watcher.WatchKeepsReportedWithinWatch | src/watcher.rs:131-136 | `watch` keeps every reported port within the watch set |
| Watcher.UnwatchLeavesStaleReport | src/watcher.rs:138-143 | `unwatch` leaves a reported bit set, so a reported port can be unwatched until the next rollover |
| Watcher.StaleReportExample | src/watcher.rs:131-183 | Watching 80/tcp, receiving a frame for it (which fires) and then unwatching it leaves 80/tcp reported but not watched |
| Looper.Rollover | src/watcher.rs:244-245 | A rollover starts the window at the current time with nothing reported and the watch set untouched |
| Looper.Step | src/watcher.rs:235-255 | A frame fires exactly when it decodes to a watched destination not yet reported, whether or not the turn rolls over, and the event is that decoded destination; a timeout always rolls over; a frame rolls over only when elapsed time strictly exceeds the window, checked after the frame is processed; without a rollover the only new reported bit is the event's; a failed read changes nothing; the watch set is never touched |
| Looper.FiresAfterRollover | src/watcher.rs:240-255 | After any rollover, the next frame for a watched destination fires |
| Looper.StepKeepsReportedWithinWatch | src/watcher.rs:235-255 | No turn of the loop reports a port that is not watched |
| Looper.Run | src/watcher.rs:234-257 | Over a run of events the watch set is unchanged, there is one callback slot per event, and each event is the decoded destination of a frame received at that turn |
| Looper.QuietIffNoRollover | src/watcher.rs:240-255 | A run of turns stays within one window exactly when none of its events, judged against the window's start and length, would roll it over |
| Looper.QuietRunReports | src/watcher.rs:240-246 | Within one window only watched, not yet reported destinations fire, each one that fired is reported at the end, nothing reported is cleared, and the timestamp is unchanged |
| Looper.AtMostOncePerWindow | src/watcher.rs:240-246 | Within one window no destination fires twice |
| Looper.AtMostOnceUpToRollover | src/watcher.rs:240-246 | Within one window, including the turn whose frame closes it (processed before the reported set is cleared), no destination fires twice |
| Looper.ExactlyOneEventPerWindow | src/watcher.rs:240-246 | A burst of frames within one window, all for one watched and not yet reported destination, fires exactly once, on the first frame |
| Looper.UnwatchedNeverFires | src/watcher.rs:154-183 | A destination that is not watched never fires, across any number of windows |
| Looper.WindowExampleSameWindow | src/watcher.rs:240-246 | With the 5000 ms window opened at 0, frames at 500 ms and 4500 ms give one event |
| Looper.WindowExampleAcrossRollover | src/watcher.rs:240-246 | With the same window, frames at 500, 5500 and 6000 ms give events at 500 and 6000 ms only, because the 5500 ms frame is processed before the rollover |

## Left out

- Socket setup in `looper` (src/watcher.rs:198-231) is left out. This is the interface-name conversion, the raw `AF_PACKET` socket, `if_nametoindex`, `bind` and the panics on their failure. It is OS I/O and foreign calls.
- The async machinery is left out: `timeout`, `AsyncFd`, `readable`, `try_io`, and the copy out of the uninitialised buffer (src/watcher.rs:231-239). The loop's turns become the `Looper.LoopEvent` values.
- The callback `lambda` is left out. Its effect is not modelled; `Looper.Step` and `Looper.Run` return the event handed to it.
- Clock readings are parameters (`now`) instead of `Instant::now()`. On a frame turn that rolls over, the code reads the clock twice: `elapsed()` for the test (src/watcher.rs:243) and a later `Instant::now()` for the new window start (src/watcher.rs:244). The model uses the one value `now` for both, so the new window starts at the instant of the test.
- The window is an integer count of milliseconds, not an `f32` count of seconds. The code fixes it at 5 s in `new` (src/watcher.rs:127) and never changes it; the model keeps it as a field of the watcher, `New` sets it to 5000, and every turn keeps it (`Looper.Run`). The model ignores floating-point rounding in `as_secs_f32` and `from_secs_f32`.
- The `eprintln!` on a readiness error (src/watcher.rs:251) is left out. That turn is a step that changes nothing.
- Frames.Decode: the model does not cut the IP payload short at the IPv4 Total Length or IPv6 Payload Length field, as pnet's `payload()` does; the payload runs to the end of the frame. A frame whose length field ends the IP packet before a full TCP or UDP header therefore decodes in the model but not in the code. Other pnet internals beyond the header offsets and minimum lengths above are left out as well.
- PortParser.ParseElementsOutcome: the matcher is ASCII-only, so an element whose digit capture holds a non-ASCII decimal digit (such as `"\u{0663}/tcp"`) is skipped and the call can return `Ok`. The code's `\d` matches such digits, the `u16` conversion rejects them, and `?` at src/watcher.rs:68 makes the whole call return `Err`. Modelling Unicode decimal digits needs the Unicode digit tables, which the model does not carry.
- PortParser.ParsePorts: for the same reason, its success condition holds for ASCII text only. With a non-ASCII decimal digit before `/tcp` or `/udp`, the model returns `Ok` where the code returns `Err`.
- The regex engine is left out. For the letters of `tcp`/`udp`, case-insensitive matching under Unicode simple case folding accepts only ASCII variants, so the protocol token is modelled exactly.
- The `Debug` impls and the text of `ParsePortError` (src/watcher.rs:34-57) are left out.
- PortParser.ParseError: the code's conversion error is the boxed `ParseIntError` of `u16::from_str_radix` (kind `PosOverflow`), which carries no digits, so every overflow gives the same error. `PortOutOfRange(digits)` additionally records which element stops the loop; the model states more about the failing element than the code reports.
- `src/podman.rs` (the container client over HTTP on a Unix socket) and `src/main.rs` are not part of this model.

=== FILE: decimal.dfy ===
/** Decimal digit strings over ASCII: the value a digit string denotes, the
    rendering Rust's `Display` gives an unsigned integer, and the checked
    accumulation `u16::from_str_radix(_, 10)` performs on a digit string. */
module Decimal {
  import opened Wrappers

  /** The exclusive upper bound of Rust's `u16`. */
  const U16Bound: nat := 0x10000

  predicate IsDigit(c: char) {
    '0' <= c <= '9'
  }

  predicate AllDigits(s: string) {
    forall i :: 0 <= i < |s| ==> IsDigit(s[i])
  }

  function DigitValue(c: char): (d: nat)
    requires IsDigit(c)
    ensures d < 10
  {
    c as int - '0' as int
  }

  function DigitChar(d: nat): (c: char)
    requires d < 10
    ensures IsDigit(c) && DigitValue(c) == d
  {
    ('0' as int + d) as char
  }

  /** The number a digit string denotes, read most significant digit first. */
  function Value(s: string): (n: nat)
    requires AllDigits(s)
  {
    if |s| == 0 then 0 else Value(s[..|s| - 1]) * 10 + DigitValue(s[|s| - 1])
  }

  /** Appending a digit shifts the value one decimal place. */
  lemma ValueSnoc(s: string, c: char)
    requires AllDigits(s) && IsDigit(c)
    ensures AllDigits(s + [c])
    ensures Value(s + [c]) == Value(s) * 10 + DigitValue(c)
  {
  }

  /** A digit string is worth at least as much as any of its prefixes. */
  lemma {:induction false} ValuePrefixMonotone(s: string, i: nat)
    requires AllDigits(s) && i <= |s|
    ensures Value(s[..i]) <= Value(s)
    decreases |s| - i
  {
    if i < |s| {
      ValuePrefixMonotone(s, i + 1);
      assert s[..i + 1] == s[..i] + [s[i]];
      ValueSnoc(s[..i], s[i]);
    } else {
      assert s[..i] == s;
    }
  }

  /** Rust's `Display` for an unsigned integer: the shortest digit string,
      with no leading zero except for zero itself. */
  function Render(n: nat): (s: string)
    ensures |s| >= 1 && AllDigits(s)
    ensures Value(s) == n
    ensures s[0] == '0' ==> n == 0 && |s| == 1
  {
    if n < 10 then [DigitChar(n)]
    else
      var prefix := Render(n / 10);
      ValueSnoc(prefix, DigitChar(n % 10));
      prefix + [DigitChar(n % 10)]
  }

  /** `u16::from_str_radix(s, 10)` on a non-empty ASCII digit string: the
      digits are accumulated left to right and the call fails as soon as
      the running value leaves the `u16` range. */
  function ParseU16(s: string): (r: Option<nat>)
    requires |s| >= 1 && AllDigits(s)
    ensures r.Some? <==> Value(s) < U16Bound
    ensures r.Some? ==> r.value == Value(s)
  {
    assert s[..0] == [];
    Accumulate(s, 0, 0)
  }

  /** One step of the checked accumulation: `acc` is the value of the first
      `i` digits. */
  function Accumulate(s: string, i: nat, acc: nat): (r: Option<nat>)
    requires AllDigits(s) && i <= |s|
    requires acc == Value(s[..i]) && acc < U16Bound
    ensures r.Some? <==> Value(s) < U16Bound
    ensures r.Some? ==> r.value == Value(s)
    decreases |s| - i
  {
    if i == |s| then
      assert s[..i] == s;
      Some(acc)
    else
      var next := acc * 10 + DigitValue(s[i]);
      assert s[..i + 1] == s[..i] + [s[i]];
      ValueSnoc(s[..i], s[i]);
      if next >= U16Bound then
        ValuePrefixMonotone(s, i + 1);
        None
      else
        Accumulate(s, i + 1, next)
  }
}

=== FILE: frames.dfy ===
/** The header decoding `process_packet` (src/watcher.rs) performs through
    pnet: Ethernet II, then IPv4 (RFC 791, section 3.1) or IPv6 (RFC 8200,
    section 3), then the destination port of TCP (RFC 9293, section 3.1) or
    UDP (RFC 768). Each layer is read only if the buffer holds its minimum
    header; otherwise the frame is not applicable. */
module Frames {
  import opened Wrappers
  import opened Ports

  type byte = x: int | 0 <= x < 0x100

  const EthernetHeaderLen: nat := 14
  const EtherTypeIpv4: uint16 := 0x0800
  const EtherTypeIpv6: uint16 := 0x86DD
  const Ipv4MinHeaderLen: nat := 20
  const Ipv6HeaderLen: nat := 40
  const TcpMinHeaderLen: nat := 20
  const UdpHeaderLen: nat := 8
  const IpProtocolTcp: byte := 6
  const IpProtocolUdp: byte := 17

  /** A 16-bit field stored most significant octet first. */
  function BigEndian16(b: seq<byte>, i: nat): (v: uint16)
    requires i + 2 <= |b|
  {
    b[i] as int * 0x100 + b[i + 1] as int
  }

  /** The two octets of a 16-bit value, most significant first. */
  function Octets16(v: uint16): (b: seq<byte>)
    ensures |b| == 2 && BigEndian16(b, 0) == v
  {
    [v / 0x100, v % 0x100]
  }

  datatype Ethernet = Ethernet(etherType: uint16, payload: seq<byte>)

  /** `EthernetPacket::new`, `get_ethertype` and `payload`: the EtherType is
      octets 12-13 and the payload follows the 14-octet header. */
  function ParseEthernet(frame: seq<byte>): (r: Option<Ethernet>)
  {
    if |frame| < EthernetHeaderLen then None
    else Some(Ethernet(BigEndian16(frame, 12), frame[EthernetHeaderLen..]))
  }

  /** A network-layer packet: the protocol number of what it carries and
      the bytes that follow its header. */
  datatype IpPacket = IpPacket(protocol: byte, payload: seq<byte>)

  /** The IPv4 header length in octets: four times the Internet Header
      Length nibble, but never less than the fixed 20-octet header. */
  function Ipv4HeaderLen(b: seq<byte>): (n: nat)
    requires |b| >= 1
    ensures Ipv4MinHeaderLen <= n <= 60
  {
    var ihl := b[0] % 16;
    if 4 * ihl < Ipv4MinHeaderLen then Ipv4MinHeaderLen else 4 * ihl
  }

  /** `Ipv4Packet::new`, `get_next_level_protocol` and `payload`: the
      protocol is octet 9 and the payload starts after the header as the
      IHL field sizes it (empty if the buffer ends first). */
  function ParseIpv4(b: seq<byte>): (r: Option<IpPacket>)
  {
    if |b| < Ipv4MinHeaderLen then None
    else
      var offset := Ipv4HeaderLen(b);
      Some(IpPacket(b[9], if offset < |b| then b[offset..] else []))
  }

  /** `Ipv6Packet::new`, `get_next_header` and `payload`: the Next Header
      is octet 6 and the payload follows the 40-octet fixed header;
      extension headers are not walked. */
  function ParseIpv6(b: seq<byte>): (r: Option<IpPacket>)
  {
    if |b| < Ipv6HeaderLen then None
    else Some(IpPacket(b[6], b[Ipv6HeaderLen..]))
  }

  /** `TcpPacket::new(..)?.get_destination()`: octets 2-3 of a header of at
      least 20 octets. */
  function TcpDestination(b: seq<byte>): (r: Option<uint16>)
  {
    if |b| < TcpMinHeaderLen then None else Some(BigEndian16(b, 2))
  }

  /** `UdpPacket::new(..)?.get_destination()`: octets 2-3 of the 8-octet header. */
  function UdpDestination(b: seq<byte>): (r: Option<uint16>)
  {
    if |b| < UdpHeaderLen then None else Some(BigEndian16(b, 2))
  }

  /** The network layer an Ethernet frame carries, if it is IPv4 or IPv6. */
  function NetworkLayer(eth: Ethernet): (r: Option<IpPacket>) {
    if eth.etherType == EtherTypeIpv4 then ParseIpv4(eth.payload)
    else if eth.etherType == EtherTypeIpv6 then ParseIpv6(eth.payload)
    else None
  }

  /** The destination a network packet addresses, if it carries TCP or UDP. */
  function TransportLayer(ip: IpPacket): (r: Option<PortInfo>) {
    if ip.protocol == IpProtocolTcp then
      match TcpDestination(ip.payload)
      case None => None
      case Some(port) => Some(TCP(port))
    else if ip.protocol == IpProtocolUdp then
      match UdpDestination(ip.payload)
      case None => None
      case Some(port) => Some(UDP(port))
    else None
  }

  /** Where the network header of a frame says its transport header starts,
      read straight from the frame's octets: the protocol number and the
      offset of the transport header within the frame. */
  datatype NetworkView = NetworkView(protocol: byte, transportOffset: nat)

  function ViewFrame(frame: seq<byte>): (r: Option<NetworkView>) {
    if |frame| < EthernetHeaderLen then None
    else if BigEndian16(frame, 12) == EtherTypeIpv4 && |frame| >= EthernetHeaderLen + Ipv4MinHeaderLen then
      Some(NetworkView(frame[EthernetHeaderLen + 9], EthernetHeaderLen + Ipv4HeaderLen(frame[EthernetHeaderLen..])))
    else if BigEndian16(frame, 12) == EtherTypeIpv6 && |frame| >= EthernetHeaderLen + Ipv6HeaderLen then
      Some(NetworkView(frame[EthernetHeaderLen + 6], EthernetHeaderLen + Ipv6HeaderLen))
    else None
  }

  /** The minimum transport header length for a protocol number. */
  function TransportMinLen(protocol: byte): (n: nat) {
    if protocol == IpProtocolTcp then TcpMinHeaderLen else UdpHeaderLen
  }

  /** The decoder: the destination (protocol, port) of an Ethernet frame
      carrying TCP or UDP over IPv4 or IPv6, or `None` for anything else.
      Its result is stated against the frame's own octets: a destination is
      found exactly when the EtherType is IPv4 or IPv6, every header up to
      the transport one fits, and the protocol number is 6 or 17; the port
      is then the big-endian pair at octets 2-3 of the transport header. */
  function Decode(frame: seq<byte>): (r: Option<PortInfo>)
    ensures r.Some? <==>
              && ViewFrame(frame).Some?
              && ViewFrame(frame).value.protocol in {IpProtocolTcp, IpProtocolUdp}
              && |frame| >= ViewFrame(frame).value.transportOffset + TransportMinLen(ViewFrame(frame).value.protocol)
    ensures r.Some? ==>
              && (r.value.TCP? <==> ViewFrame(frame).value.protocol == IpProtocolTcp)
              && r.value.port == BigEndian16(frame, ViewFrame(frame).value.transportOffset + 2)
  {
    match ParseEthernet(frame)
    case None => None
    case Some(eth) =>
      match NetworkLayer(eth)
      case None => None
      case Some(ip) =>
        var view := ViewFrame(frame).value;
        assert ip.protocol == view.protocol;
        assert ip.payload == if view.transportOffset < |frame| then frame[view.transportOffset..] else [];
        TransportFromView(frame, view, ip);
        TransportLayer(ip)
  }

  /** The transport layer read from the network layer's payload agrees with
      the transport header read at its offset in the whole frame. */
  lemma TransportFromView(frame: seq<byte>, view: NetworkView, ip: IpPacket)
    requires ip.protocol == view.protocol
    requires ip.payload == if view.transportOffset < |frame| then frame[view.transportOffset..] else []
    ensures TransportLayer(ip).Some? <==>
              && view.protocol in {IpProtocolTcp, IpProtocolUdp}
              && |frame| >= view.transportOffset + TransportMinLen(view.protocol)
    ensures TransportLayer(ip).Some? ==>
              && (TransportLayer(ip).value.TCP? <==> view.protocol == IpProtocolTcp)
              && TransportLayer(ip).value.port == BigEndian16(frame, view.transportOffset + 2)
  {
  }

  /** `n` zero octets. */
  function Zeros(n: nat): (b: seq<byte>)
    ensures |b| == n
  {
    seq(n, _ => 0)
  }

  datatype IpVersion = V4 | V6

  /** The smallest well-formed frame addressed to `d`: zero MAC addresses,
      an IPv4 header with IHL 5 or an IPv6 fixed header, and a TCP header
      with data offset 5 or a UDP header, sent from port `source`. */
  function BuildFrame(version: IpVersion, source: uint16, d: PortInfo): (frame: seq<byte>)
    ensures |frame| == EthernetHeaderLen + (if version == V4 then Ipv4MinHeaderLen else Ipv6HeaderLen)
                       + (if d.TCP? then TcpMinHeaderLen else UdpHeaderLen)
  {
    var protocol: byte := if d.TCP? then IpProtocolTcp else IpProtocolUdp;
    var transport: seq<byte> :=
      if d.TCP? then Octets16(source) + Octets16(d.port) + Zeros(8) + [0x50, 0] + Zeros(6)
      else Octets16(source) + Octets16(d.port) + [0, 8, 0, 0];
    var network: seq<byte> :=
      match version
      case V4 => [0x45, 0] + Octets16(20 + |transport|) + [0, 0, 0, 0, 64, protocol, 0, 0] + Zeros(8)
      case V6 => [0x60, 0, 0, 0] + Octets16(|transport|) + [protocol, 64] + Zeros(32);
    var etherType := if version == V4 then EtherTypeIpv4 else EtherTypeIpv6;
    Zeros(12) + Octets16(etherType) + network + transport
  }

  /** The decoder recovers the destination a frame was built for, over
      either IP version and from any source port. */
  lemma DecodeBuiltFrame(version: IpVersion, source: uint16, d: PortInfo)
    ensures Decode(BuildFrame(version, source, d)) == Some(d)
  {
    var protocol: byte := if d.TCP? then IpProtocolTcp else IpProtocolUdp;
    if version == V4 {
      BuiltFrameIpv4(source, d);
      DecodeAtOffset(BuildFrame(version, source, d), protocol, EthernetHeaderLen + Ipv4MinHeaderLen);
    } else {
      BuiltFrameIpv6(source, d);
      DecodeAtOffset(BuildFrame(version, source, d), protocol, EthernetHeaderLen + Ipv6HeaderLen);
    }
  }

  /** A frame whose network header names protocol 6 or 17 and a transport
      header that fits decodes to the destination port in that header. */
  lemma DecodeAtOffset(frame: seq<byte>, protocol: byte, offset: nat)
    requires ViewFrame(frame) == Some(NetworkView(protocol, offset))
    requires protocol in {IpProtocolTcp, IpProtocolUdp}
    requires |frame| >= offset + TransportMinLen(protocol)
    ensures Decode(frame) == Some(if protocol == IpProtocolTcp then TCP(BigEndian16(frame, offset + 2))
                                  else UDP(BigEndian16(frame, offset + 2)))
  {
  }

  /** The fields of a built IPv4 frame, read at their offsets. */
  lemma BuiltFrameIpv4(source: uint16, d: PortInfo)
    ensures var frame := BuildFrame(V4, source, d);
            && BigEndian16(frame, 12) == EtherTypeIpv4
            && Ipv4HeaderLen(frame[EthernetHeaderLen..]) == Ipv4MinHeaderLen
            && frame[EthernetHeaderLen + 9] == (if d.TCP? then IpProtocolTcp else IpProtocolUdp)
            && BigEndian16(frame, EthernetHeaderLen + Ipv4MinHeaderLen + 2) == d.port
  {
  }

  /** The fields of a built IPv6 frame, read at their offsets. */
  lemma BuiltFrameIpv6(source: uint16, d: PortInfo)
    ensures var frame := BuildFrame(V6, source, d);
            && BigEndian16(frame, 12) == EtherTypeIpv6
            && frame[EthernetHeaderLen + 6] == (if d.TCP? then IpProtocolTcp else IpProtocolUdp)
            && BigEndian16(frame, EthernetHeaderLen + Ipv6HeaderLen + 2) == d.port
  {
  }
}

=== FILE: looper.dfy ===
/** The rollover logic of `looper` (src/watcher.rs) as a step relation: each
    turn of the loop observes one event, and the socket, the readiness
    wait and the timer are replaced by the events themselves. */
module Looper {
  import opened Wrappers
  import opened Ports
  import opened PortSets
  import Frames
  import opened Watcher

  /** What one turn of the loop observes. */
  datatype LoopEvent =
      /** The socket became readable and a frame was received; `now` is the
          clock reading at the rollover test, taken after the frame was
          processed and its event handed to the callback. */
    | FrameReceived(now: int, frame: seq<Frames.byte>)
      /** No readiness within the window; the clock reads `now`. */
    | ReadinessTimeout(now: int)
      /** The readiness wait failed (logged), or the receive would block or failed. */
    | ReadFailed

  /** Whether this turn ends the aggregation window. After a frame the
      test is a strict comparison against the window; a timeout always
      ends it; a failed read never does. */
  predicate RollsOver(w: PortWatcher, ev: LoopEvent) {
    match ev
    case FrameReceived(now, _) => now - w.timestamp > w.window
    case ReadinessTimeout(_) => true
    case ReadFailed => false
  }

  /** A fresh window starting at `now`, with nothing reported. */
  function Rollover(w: PortWatcher, now: int): (w': PortWatcher)
    requires w.Valid()
    ensures w'.Valid() && w'.watch == w.watch && w'.timestamp == now
    ensures forall d :: !w'.reported.Contains(d)
  {
    ResetIsDefault(w.reported);
    w.(timestamp := now, reported := Reset(w.reported))
  }

  /** One turn of the loop. A received frame is processed first, its event
      (if any) handed to the callback, and only then is the window checked. */
  function Step(w: PortWatcher, ev: LoopEvent): (r: (PortWatcher, Option<PortInfo>))
    requires w.Valid()
    ensures r.0.Valid()
    ensures r.0.watch == w.watch && r.0.interface == w.interface && r.0.window == w.window
    ensures r.1.Some? ==> ev.FrameReceived? && Frames.Decode(ev.frame) == r.1
    ensures r.1.Some? ==> w.watch.Contains(r.1.value) && !w.reported.Contains(r.1.value)
    ensures (&& ev.FrameReceived? && Frames.Decode(ev.frame).Some?
             && w.watch.Contains(Frames.Decode(ev.frame).value)
             && !w.reported.Contains(Frames.Decode(ev.frame).value))
            ==> r.1 == Frames.Decode(ev.frame)
    ensures RollsOver(w, ev) ==> r.0.timestamp == ev.now && forall d :: !r.0.reported.Contains(d)
    ensures !RollsOver(w, ev) ==> r.0.timestamp == w.timestamp
    ensures !RollsOver(w, ev) ==> forall d :: r.0.reported.Contains(d) <==> w.reported.Contains(d) || r.1 == Some(d)
    ensures ev.ReadFailed? ==> r == (w, None)
  {
    match ev
    case FrameReceived(now, frame) =>
      var (w1, event) := ProcessPacket(w, frame);
      if now - w1.timestamp > w1.window then (Rollover(w1, now), event) else (w1, event)
    case ReadinessTimeout(now) => (Rollover(w, now), None)
    case ReadFailed => (w, None)
  }

  /** A frame for a watched destination fires whenever its reported bit is
      clear, in particular right after any rollover. */
  lemma FiresAfterRollover(w: PortWatcher, ev: LoopEvent, now: int, frame: seq<Frames.byte>)
    requires w.Valid() && RollsOver(w, ev)
    requires Frames.Decode(frame).Some? && w.watch.Contains(Frames.Decode(frame).value)
    ensures Step(Step(w, ev).0, FrameReceived(now, frame)).1 == Frames.Decode(frame)
  {
  }

  /** Every turn keeps reported ports within the watch set. */
  lemma StepKeepsReportedWithinWatch(w: PortWatcher, ev: LoopEvent)
    requires w.Valid() && ReportedWithinWatch(w)
    ensures ReportedWithinWatch(Step(w, ev).0)
  {
  }

  /** The loop over a sequence of events: the final watcher and the event
      handed to the callback (if any) at each turn. */
  function Run(w: PortWatcher, evs: seq<LoopEvent>): (r: (PortWatcher, seq<Option<PortInfo>>))
    requires w.Valid()
    ensures r.0.Valid() && |r.1| == |evs|
    ensures r.0.watch == w.watch && r.0.interface == w.interface && r.0.window == w.window
    ensures forall i :: 0 <= i < |evs| && r.1[i].Some? ==>
              evs[i].FrameReceived? && Frames.Decode(evs[i].frame) == r.1[i]
    decreases |evs|
  {
    if |evs| == 0 then (w, [])
    else
      var (w1, event) := Step(w, evs[0]);
      var (wn, events) := Run(w1, evs[1..]);
      assert forall i :: 1 <= i < |evs| ==> evs[i] == evs[1..][i - 1];
      (wn, [event] + events)
  }

  /** No turn of the run ends the window. */
  ghost predicate Quiet(w: PortWatcher, evs: seq<LoopEvent>)
    requires w.Valid()
    decreases |evs|
  {
    |evs| == 0 || (!RollsOver(w, evs[0]) && Quiet(Step(w, evs[0]).0, evs[1..]))
  }

  /** A run stays within one window exactly when no event, judged against
      the window the run started in, would end it: turns that do not roll
      over keep the window's start and length. */
  lemma {:induction false} QuietIffNoRollover(w: PortWatcher, evs: seq<LoopEvent>)
    requires w.Valid()
    ensures Quiet(w, evs) <==> forall i :: 0 <= i < |evs| ==> !RollsOver(w, evs[i])
    decreases |evs|
  {
    if |evs| > 0 {
      var w1 := Step(w, evs[0]).0;
      QuietIffNoRollover(w1, evs[1..]);
      forall i | 1 <= i < |evs| ensures evs[1..][i - 1] == evs[i] {}
      if !RollsOver(w, evs[0]) {
        assert w1.timestamp == w.timestamp && w1.window == w.window;
        forall e: LoopEvent ensures RollsOver(w1, e) == RollsOver(w, e) {}
      }
    }
  }

  /** Unfolds one turn of a non-empty run. */
  lemma RunUnfold(w: PortWatcher, evs: seq<LoopEvent>)
    requires w.Valid() && |evs| > 0
    ensures Run(w, evs).0 == Run(Step(w, evs[0]).0, evs[1..]).0
    ensures Run(w, evs).1 == [Step(w, evs[0]).1] + Run(Step(w, evs[0]).0, evs[1..]).1
  {
  }

  /** Within one aggregation window: only watched destinations that were
      not yet reported fire, every one that fired is reported at the end,
      nothing reported is cleared, and the window's start stays put. */
  lemma {:induction false} QuietRunReports(w: PortWatcher, evs: seq<LoopEvent>)
    requires w.Valid() && Quiet(w, evs)
    ensures var events := Run(w, evs).1;
            forall i :: 0 <= i < |events| && events[i].Some? ==>
              && w.watch.Contains(events[i].value) && !w.reported.Contains(events[i].value)
              && Run(w, evs).0.reported.Contains(events[i].value)
    ensures forall d :: w.reported.Contains(d) ==> Run(w, evs).0.reported.Contains(d)
    ensures Run(w, evs).0.timestamp == w.timestamp
    decreases |evs|
  {
    if |evs| > 0 {
      var (w1, event) := Step(w, evs[0]);
      QuietRunReports(w1, evs[1..]);
      RunUnfold(w, evs);
      var events := Run(w, evs).1;
      var rest := Run(w1, evs[1..]).1;
      forall i | 0 <= i < |events| && events[i].Some?
        ensures w.watch.Contains(events[i].value) && !w.reported.Contains(events[i].value)
        ensures Run(w, evs).0.reported.Contains(events[i].value)
      {
        if i > 0 {
          assert events[i] == rest[i - 1];
        }
      }
    }
  }

  /** No destination appears twice among the events handed to the callback. */
  ghost predicate NoRepeats(events: seq<Option<PortInfo>>) {
    forall i, j :: 0 <= i < j < |events| && events[i].Some? ==> events[i] != events[j]
  }

  /** Prepending an event that does not occur later keeps the events free
      of repeats. */
  lemma ConsNoRepeats(event: Option<PortInfo>, rest: seq<Option<PortInfo>>)
    requires NoRepeats(rest)
    requires event.Some? ==> forall k :: 0 <= k < |rest| ==> rest[k] != event
    ensures NoRepeats([event] + rest)
  {
  }

  /** Within one aggregation window each destination fires at most once. */
  lemma {:induction false} AtMostOncePerWindow(w: PortWatcher, evs: seq<LoopEvent>)
    requires w.Valid() && Quiet(w, evs)
    ensures NoRepeats(Run(w, evs).1)
    decreases |evs|
  {
    if |evs| > 0 {
      var (w1, event) := Step(w, evs[0]);
      var rest := Run(w1, evs[1..]).1;
      AtMostOncePerWindow(w1, evs[1..]);
      QuietRunReports(w1, evs[1..]);
      RunUnfold(w, evs);
      if event.Some? {
        assert w1.reported.Contains(event.value);
        forall k | 0 <= k < |rest| ensures rest[k] != event {
          if rest[k].Some? {
            assert !w1.reported.Contains(rest[k].value);
          }
        }
      }
      ConsNoRepeats(event, rest);
    }
  }

  /** Appending one event to a run adds one turn at the end. */
  lemma {:induction false} RunSnoc(w: PortWatcher, evs: seq<LoopEvent>, last: LoopEvent)
    requires w.Valid()
    ensures Run(w, evs + [last]).0 == Step(Run(w, evs).0, last).0
    ensures Run(w, evs + [last]).1 == Run(w, evs).1 + [Step(Run(w, evs).0, last).1]
    decreases |evs|
  {
    if |evs| == 0 {
      assert evs + [last] == [last];
      assert [last][1..] == [];
    } else {
      var (w1, event) := Step(w, evs[0]);
      assert (evs + [last])[0] == evs[0];
      assert (evs + [last])[1..] == evs[1..] + [last];
      RunSnoc(w1, evs[1..], last);
      RunUnfold(w, evs);
      RunUnfold(w, evs + [last]);
      var rest := Run(w1, evs[1..]).1;
      var final := Step(Run(w1, evs[1..]).0, last).1;
      assert [event] + (rest + [final]) == ([event] + rest) + [final];
    }
  }

  /** Appending an event that no earlier event equals keeps the events free
      of repeats. */
  lemma SnocNoRepeats(events: seq<Option<PortInfo>>, event: Option<PortInfo>)
    requires NoRepeats(events)
    requires forall k :: 0 <= k < |events| && events[k].Some? ==> events[k] != event
    ensures NoRepeats(events + [event])
  {
  }

  /** The whole window, including the frame that closes it: that frame is
      processed before the reported set is cleared, so it cannot repeat a
      destination that already fired in the window either. */
  lemma AtMostOnceUpToRollover(w: PortWatcher, evs: seq<LoopEvent>, last: LoopEvent)
    requires w.Valid() && Quiet(w, evs)
    ensures NoRepeats(Run(w, evs + [last]).1)
  {
    AtMostOncePerWindow(w, evs);
    QuietRunReports(w, evs);
    RunSnoc(w, evs, last);
    var wn := Run(w, evs).0;
    var events := Run(w, evs).1;
    var final := Step(wn, last).1;
    forall k | 0 <= k < |events| && events[k].Some? ensures events[k] != final {
      assert wn.reported.Contains(events[k].value);
    }
    SnocNoRepeats(events, final);
  }

  /** A burst of frames for one watched, not yet reported destination within
      one window produces exactly one event, on the first frame. */
  lemma {:induction false} ExactlyOneEventPerWindow(w: PortWatcher, evs: seq<LoopEvent>, d: PortInfo)
    requires w.Valid() && Quiet(w, evs) && |evs| >= 1
    requires forall i :: 0 <= i < |evs| ==> evs[i].FrameReceived? && Frames.Decode(evs[i].frame) == Some(d)
    requires w.watch.Contains(d) && !w.reported.Contains(d)
    ensures Run(w, evs).1[0] == Some(d)
    ensures forall i :: 1 <= i < |evs| ==> Run(w, evs).1[i].None?
  {
    var (w1, event) := Step(w, evs[0]);
    assert event == Some(d);
    assert w1.reported.Contains(d);
    QuietRunReports(w1, evs[1..]);
    RunUnfold(w, evs);
    var events := Run(w, evs).1;
    forall i | 1 <= i < |evs| ensures events[i].None? {
      assert events[i] == Run(w1, evs[1..]).1[i - 1];
      assert evs[1..][i - 1] == evs[i];
    }
  }

  /** A destination that is not watched never fires, across any number of
      windows and any volume of traffic. */
  lemma {:induction false} UnwatchedNeverFires(w: PortWatcher, evs: seq<LoopEvent>, d: PortInfo)
    requires w.Valid() && !w.watch.Contains(d)
    ensures forall i :: 0 <= i < |evs| ==> Run(w, evs).1[i] != Some(d)
    decreases |evs|
  {
    if |evs| > 0 {
      var (w1, event) := Step(w, evs[0]);
      UnwatchedNeverFires(w1, evs[1..], d);
      assert Run(w, evs).1 == [event] + Run(w1, evs[1..]).1;
    }
  }

  /** With the 5 s window opened at time 0, frames at 500 ms and 4500 ms
      for a watched destination give one event. */
  lemma WindowExampleSameWindow(w: PortWatcher, frame: seq<Frames.byte>, d: PortInfo)
    requires w.Valid() && w.window == DefaultWindow && w.timestamp == 0
    requires Frames.Decode(frame) == Some(d) && w.watch.Contains(d) && !w.reported.Contains(d)
    ensures Run(w, [FrameReceived(500, frame), FrameReceived(4500, frame)]).1 == [Some(d), None]
  {
  }

  /** With the same window, a second frame at 5500 ms does not fire: it is
      processed while the first report still stands, and the window is
      cleared only after it. A third frame at 6000 ms fires again. */
  lemma WindowExampleAcrossRollover(w: PortWatcher, frame: seq<Frames.byte>, d: PortInfo)
    requires w.Valid() && w.window == DefaultWindow && w.timestamp == 0
    requires Frames.Decode(frame) == Some(d) && w.watch.Contains(d) && !w.reported.Contains(d)
    ensures Run(w, [FrameReceived(500, frame), FrameReceived(5500, frame), FrameReceived(6000, frame)]).1
            == [Some(d), None, Some(d)]
  {
    var evs := [FrameReceived(500, frame), FrameReceived(5500, frame), FrameReceived(6000, frame)];
    var (w1, e1) := Step(w, evs[0]);
    var (w2, e2) := Step(w1, evs[1]);
    var (w3, e3) := Step(w2, evs[2]);
    assert e1 == Some(d) && e2 == None && e3 == Some(d);
    assert evs[1..] == [evs[1], evs[2]];
    assert evs[1..][1..] == [evs[2]];
    assert evs[1..][1..][1..] == [];
    assert Run(w2, evs[1..][1..]).1 == [e3] + Run(w3, []).1;
    assert Run(w1, evs[1..]).1 == [e2] + Run(w2, evs[1..][1..]).1;
  }
}

=== FILE: port_parser.dfy ===
/** `parse_ports` (src/watcher.rs): a comma-separated list of `port/protocol`
    elements, each tested against the pattern `^(?i)(\d+)/(tcp|udp)$`. */
module PortParser {
  import opened Wrappers
  import Decimal
  import Text
  import opened Ports

  /** The two ways the call can fail: the `u16` conversion of the digit
      capture, and the protocol branch that the pattern makes unreachable.
      The conversion error of the code carries no digits; `PortOutOfRange`
      records them only to name the element that stops the loop. */
  datatype ParseError = PortOutOfRange(digits: string) | InvalidProtocol(protocol: string)

  /** The two capture groups of a match. */
  datatype Captures = Captures(digits: string, protocol: string)

  /** ASCII lower-casing of one character. */
  function LowerChar(c: char): (l: char) {
    if 'A' <= c <= 'Z' then (c as int - 'A' as int + 'a' as int) as char else c
  }

  /** `to_lowercase` restricted to ASCII. */
  function Lower(s: string): (t: string)
    ensures |t| == |s|
    ensures forall i :: 0 <= i < |s| ==> t[i] == LowerChar(s[i])
  {
    seq(|s|, i requires 0 <= i < |s| => LowerChar(s[i]))
  }

  /** Whether a token is `tcp` or `udp` in any mix of letter case. */
  predicate IsProtocolToken(t: string) {
    Lower(t) == "tcp" || Lower(t) == "udp"
  }

  /** The pattern `^(?i)(\d+)/(tcp|udp)$` as a matcher over ASCII text. The
      protocol alternatives are three characters long, so a match is decided
      by the slash four characters from the end. */
  function MatchElement(v: string): (m: Option<Captures>)
    ensures m.Some? ==> v == m.value.digits + "/" + m.value.protocol
    ensures m.Some? ==> |m.value.digits| >= 1 && Decimal.AllDigits(m.value.digits)
    ensures m.Some? ==> IsProtocolToken(m.value.protocol)
  {
    if |v| < 5 then None
    else
      var n := |v| - 4;
      if v[n] == '/' && Decimal.AllDigits(v[..n]) && IsProtocolToken(v[n + 1..]) then
        assert v == v[..n] + "/" + v[n + 1..];
        Some(Captures(v[..n], v[n + 1..]))
      else None
  }

  /** Every text of the pattern's shape matches, with exactly its two parts
      captured. */
  lemma MatchElementComplete(digits: string, protocol: string)
    requires |digits| >= 1 && Decimal.AllDigits(digits)
    requires IsProtocolToken(protocol)
    ensures MatchElement(digits + "/" + protocol) == Some(Captures(digits, protocol))
  {
    var v := digits + "/" + protocol;
    var n := |v| - 4;
    assert |protocol| == 3;
    assert v[..n] == digits;
    assert v[n + 1..] == protocol;
  }

  /** One element of the split list: `Ok(None)` when it does not match, the
      conversion error for an out-of-range port, otherwise the descriptor.
      The contract states the outcome against the pattern and the decimal
      value rather than through the conversion. */
  function ParseElement(v: string): (r: Result<Option<PortInfo>, ParseError>)
    ensures MatchElement(v).None? ==> r == Ok(None)
    ensures Overflows(v) ==> r == Err(PortOutOfRange(MatchElement(v).value.digits))
    ensures (MatchElement(v).Some? && !Overflows(v)) ==>
              (&& r.Ok? && r.value.Some?
               && r.value.value.port == Decimal.Value(MatchElement(v).value.digits)
               && ProtocolName(r.value.value.Protocol()) == Lower(MatchElement(v).value.protocol))
  {
    match MatchElement(v)
    case None => Ok(None)
    case Some(cap) =>
      match Decimal.ParseU16(cap.digits)
      case None => Err(PortOutOfRange(cap.digits))
      case Some(port) =>
        var protocol := Lower(cap.protocol);
        if protocol == "tcp" then Ok(Some(TCP(port)))
        else if protocol == "udp" then Ok(Some(UDP(port)))
        else Err(InvalidProtocol(protocol))
  }

  /** Whether an element matches the pattern but its digits leave `u16`. */
  predicate Overflows(v: string) {
    MatchElement(v).Some? && Decimal.Value(MatchElement(v).value.digits) >= Decimal.U16Bound
  }

  /** Whether no element of a list matches with digits past `u16`. */
  predicate NoneOverflows(vs: seq<string>) {
    forall i :: 0 <= i < |vs| ==> !Overflows(vs[i])
  }

  /** The loop of `parse_ports` over the split elements: matching elements
      are converted and collected in order, non-matching ones skipped, and
      the first conversion error ends the call. The invalid-protocol error
      is never produced. */
  function ParseElements(vs: seq<string>): (r: Result<seq<PortInfo>, ParseError>)
    ensures r.Err? ==> r.error.PortOutOfRange?
    ensures r.Ok? ==> |r.value| <= |vs|
  {
    if |vs| == 0 then Ok([])
    else
      match ParseElement(vs[0])
      case Err(e) => Err(e)
      case Ok(head) =>
        match ParseElements(vs[1..])
        case Err(e) => Err(e)
        case Ok(rest) => Ok((if head.Some? then [head.value] else []) + rest)
  }

  /** The outcome of the loop against the elements: it succeeds exactly when
      no matching element's digits leave `u16`, and otherwise fails with the
      first such element's digits. */
  lemma {:induction false} ParseElementsOutcome(vs: seq<string>)
    ensures ParseElements(vs).Ok? <==> NoneOverflows(vs)
    ensures forall i :: 0 <= i < |vs| && Overflows(vs[i]) && (forall j :: 0 <= j < i ==> !Overflows(vs[j])) ==>
              ParseElements(vs) == Err(PortOutOfRange(MatchElement(vs[i]).value.digits))
  {
    if |vs| > 0 {
      ParseElementsOutcome(vs[1..]);
      forall i | 1 <= i < |vs| ensures vs[i] == vs[1..][i - 1] {}
      forall i | 0 <= i < |vs| && Overflows(vs[i]) && (forall j :: 0 <= j < i ==> !Overflows(vs[j]))
        ensures ParseElements(vs) == Err(PortOutOfRange(MatchElement(vs[i]).value.digits))
      {
        if i > 0 {
          assert !Overflows(vs[0]);
          assert forall j :: 0 <= j < i - 1 ==> !Overflows(vs[1..][j]) by {
            forall j | 0 <= j < i - 1 ensures !Overflows(vs[1..][j]) {
              assert vs[1..][j] == vs[j + 1];
            }
          }
        }
      }
    }
  }

  /** A list of one element parses as that element does. */
  lemma SingleElement(v: string)
    ensures ParseElement(v).Err? ==> ParseElements([v]) == Err(ParseElement(v).error)
    ensures ParseElement(v) == Ok(None) ==> ParseElements([v]) == Ok([])
    ensures (ParseElement(v).Ok? && ParseElement(v).value.Some?) ==> ParseElements([v]) == Ok([ParseElement(v).value.value])
  {
    assert [v][1..] == [];
    assert [v][0] == v;
    if ParseElement(v).Ok? && ParseElement(v).value.Some? {
      assert [ParseElement(v).value.value] + [] == [ParseElement(v).value.value];
    }
  }

  /** `parse_ports`: the loop over the comma-separated elements. It
      succeeds exactly when no element that matches the pattern has digits
      past `u16`; otherwise the error names the digits of the first such
      element. */
  function ParsePorts(list: string): (r: Result<seq<PortInfo>, ParseError>)
    ensures r.Err? ==> r.error.PortOutOfRange?
    ensures r.Ok? <==> NoneOverflows(Text.Split(list, ','))
    ensures var parts := Text.Split(list, ',');
            forall i :: 0 <= i < |parts| && Overflows(parts[i]) && (forall j :: 0 <= j < i ==> !Overflows(parts[j])) ==>
              r == Err(PortOutOfRange(MatchElement(parts[i]).value.digits))
  {
    ParseElementsOutcome(Text.Split(list, ','));
    ParseElements(Text.Split(list, ','))
  }

  /** How the results of two consecutive runs of elements combine: the first
      error wins, otherwise the outputs are concatenated in order. */
  function Then(a: Result<seq<PortInfo>, ParseError>, b: Result<seq<PortInfo>, ParseError>): (r: Result<seq<PortInfo>, ParseError>) {
    match a
    case Err(e) => Err(e)
    case Ok(xs) =>
      match b
      case Err(e) => Err(e)
      case Ok(ys) => Ok(xs + ys)
  }

  /** Parsing distributes over concatenation of the element list: output
      order follows input order and the earliest error is the one reported. */
  lemma {:induction false} ParseElementsAppend(xs: seq<string>, ys: seq<string>)
    ensures ParseElements(xs + ys) == Then(ParseElements(xs), ParseElements(ys))
  {
    if |xs| == 0 {
      assert xs + ys == ys;
      if ParseElements(ys).Ok? {
        assert [] + ParseElements(ys).value == ParseElements(ys).value;
      }
    } else {
      assert (xs + ys)[1..] == xs[1..] + ys;
      assert (xs + ys)[0] == xs[0];
      ParseElementsAppend(xs[1..], ys);
      match ParseElement(xs[0])
      case Err(e) =>
      case Ok(head) =>
        var h := if head.Some? then [head.value] else [];
        match ParseElements(xs[1..])
        case Err(e) =>
        case Ok(a) =>
          match ParseElements(ys)
          case Err(e) =>
          case Ok(b) =>
            assert h + (a + b) == (h + a) + b;
    }
  }

  /** A non-matching element, wherever it stands, changes nothing. */
  lemma NonMatchingSkipped(xs: seq<string>, v: string, ys: seq<string>)
    requires MatchElement(v).None?
    ensures ParseElements(xs + [v] + ys) == ParseElements(xs + ys)
  {
    ParseElementsAppend(xs + [v], ys);
    ParseElementsAppend(xs, [v]);
    ParseElementsAppend(xs, ys);
    SingleElement(v);
    assert xs + [v] + ys == (xs + [v]) + ys;
    if ParseElements(xs).Ok? {
      assert ParseElements(xs).value + [] == ParseElements(xs).value;
    }
  }

  /** The whole list parses through `Split`, so a comma adds a boundary and
      the two halves parse independently, in order. */
  lemma ParsePortsComma(a: string, b: string)
    requires ',' !in a
    ensures ParsePorts(a + "," + b) == Then(ParsePorts(a), ParsePorts(b))
  {
    Text.SplitAfterPart(a, ',', b);
    Text.SplitNoSeparator(a, ',');
    assert a + "," + b == a + [','] + b;
    ParseElementsAppend([a], Text.Split(b, ','));
  }

  /** A digit string holds no comma. */
  lemma DigitsNoComma(s: string)
    requires Decimal.AllDigits(s)
    ensures ',' !in s
  {
  }

  /** The rendering of a descriptor is one matching element whose captures
      are its decimal port and its lower-case protocol name. */
  lemma RenderMatches(d: PortInfo)
    ensures MatchElement(Render(d)) == Some(Captures(Decimal.Render(d.port), ProtocolName(d.Protocol())))
    ensures ParseElement(Render(d)) == Ok(Some(d))
    ensures ',' !in Render(d)
  {
    var digits := Decimal.Render(d.port);
    var name := ProtocolName(d.Protocol());
    assert Lower(name) == name;
    MatchElementComplete(digits, name);
    DigitsNoComma(digits);
    ProtocolTokenNoComma(name);
  }

  /** Round trip of one descriptor: its rendering parses back to exactly it. */
  lemma RoundTrip(d: PortInfo)
    ensures ParsePorts(Render(d)) == Ok([d])
  {
    RenderMatches(d);
    Text.SplitNoSeparator(Render(d), ',');
    SingleElement(Render(d));
  }

  /** Rendered elements parse back to their descriptors, in order. */
  lemma {:induction false} ParseRendered(ds: seq<PortInfo>)
    ensures ParseElements(RenderEach(ds)) == Ok(ds)
  {
    if |ds| > 0 {
      ParseRendered(ds[1..]);
      assert RenderEach(ds) == [Render(ds[0])] + RenderEach(ds[1..]);
      assert ParseElement(Render(ds[0])) == Ok(Some(ds[0])) by {
        RenderMatches(ds[0]);
      }
      ParseCons(Render(ds[0]), RenderEach(ds[1..]), ds[0], ds[1..]);
      assert [ds[0]] + ds[1..] == ds;
    }
  }

  /** An element that gives a descriptor, in front of a list that parses,
      puts that descriptor in front of the list's result. */
  lemma ParseCons(v: string, vs: seq<string>, d: PortInfo, ds: seq<PortInfo>)
    requires ParseElement(v) == Ok(Some(d)) && ParseElements(vs) == Ok(ds)
    ensures ParseElements([v] + vs) == Ok([d] + ds)
  {
    assert ([v] + vs)[0] == v;
    assert ([v] + vs)[1..] == vs;
  }

  /** Round trip of a list: the comma-joined rendering parses back to the
      same descriptors in the same order. */
  lemma RoundTripList(ds: seq<PortInfo>)
    ensures ParsePorts(RenderList(ds)) == Ok(ds)
  {
    var parts := RenderEach(ds);
    if |ds| == 0 {
      assert RenderList(ds) == "";
      SingleElement("");
    } else {
      forall i | 0 <= i < |parts| ensures ',' !in parts[i] {
        RenderMatches(ds[i]);
      }
      Text.SplitJoin(parts, ',');
      ParseRendered(ds);
    }
  }

  /** A protocol token, in any letter case, holds no comma. */
  lemma ProtocolTokenNoComma(t: string)
    requires IsProtocolToken(t)
    ensures ',' !in t
  {
    forall k | 0 <= k < |t| ensures t[k] != ',' {
      assert Lower(t)[k] == LowerChar(t[k]);
      assert Lower(t)[k] != ',';
    }
  }

  /** The protocol token is case-insensitive: any digit string in range and
      any spelling of `tcp` or `udp` give the one descriptor. */
  lemma CaseInsensitive(digits: string, protocol: string)
    requires |digits| >= 1 && Decimal.AllDigits(digits)
    requires Decimal.Value(digits) < Decimal.U16Bound
    requires IsProtocolToken(protocol)
    ensures Lower(protocol) == "tcp" ==> ParsePorts(digits + "/" + protocol) == Ok([TCP(Decimal.Value(digits))])
    ensures Lower(protocol) == "udp" ==> ParsePorts(digits + "/" + protocol) == Ok([UDP(Decimal.Value(digits))])
  {
    var v := digits + "/" + protocol;
    MatchElementComplete(digits, protocol);
    ProtocolTokenNoComma(protocol);
    DigitsNoComma(digits);
    Text.SplitNoSeparator(v, ',');
    SingleElement(v);
  }

  /** A two-element list parses to its two descriptors, in order. */
  lemma ExampleList()
    ensures ParsePorts("25565/tcp,34197/udp") == Ok([TCP(25565), UDP(34197)])
  {
    ExampleTcp25565();
    ExampleUdp34197();
    ExampleListShape();
    TwoElements("25565/tcp", "34197/udp", TCP(25565), UDP(34197));
  }

  /** Two comma-separated elements that each parse to one descriptor parse
      to both, in order. */
  lemma TwoElements(a: string, b: string, da: PortInfo, db: PortInfo)
    requires ',' !in a && ParsePorts(a) == Ok([da]) && ParsePorts(b) == Ok([db])
    ensures ParsePorts(a + "," + b) == Ok([da, db])
  {
    ParsePortsComma(a, b);
    assert [da] + [db] == [da, db];
  }

  /** The single-element examples, spelled as digits, a slash and a token. */
  lemma ExampleSpellings()
    ensures "25565" + "/" + "tcp" == "25565/tcp"
    ensures "34197" + "/" + "udp" == "34197/udp"
    ensures "80" + "/" + "TCP" == "80/TCP"
    ensures "99999" + "/" + "tcp" == "99999/tcp"
  {
  }

  /** The example list is its first element, a comma, and its second element. */
  lemma ExampleListShape()
    ensures "25565/tcp,34197/udp" == "25565/tcp" + "," + "34197/udp"
    ensures ',' !in "25565/tcp"
  {
  }

  lemma ExampleTcp25565()
    ensures ParsePorts("25565/tcp") == Ok([TCP(25565)])
  {
    ExampleTcp25565Parts();
    ExampleSpellings();
  }

  lemma ExampleTcp25565Parts()
    ensures ParsePorts("25565" + "/" + "tcp") == Ok([TCP(25565)])
  {
    DigitsOf25565();
    assert Lower("tcp") == "tcp";
    CaseInsensitive("25565", "tcp");
  }

  lemma ExampleUdp34197()
    ensures ParsePorts("34197/udp") == Ok([UDP(34197)])
  {
    ExampleUdp34197Parts();
    ExampleSpellings();
  }

  lemma ExampleUdp34197Parts()
    ensures ParsePorts("34197" + "/" + "udp") == Ok([UDP(34197)])
  {
    DigitsOf34197();
    assert Lower("udp") == "udp";
    CaseInsensitive("34197", "udp");
  }

  /** Elements outside the pattern are skipped, not rejected: the empty list,
      an unknown protocol, leading whitespace. */
  lemma ExamplesSkipped()
    ensures ParsePorts("") == Ok([])
    ensures ParsePorts("80/sctp") == Ok([])
    ensures ParsePorts(" 80/tcp") == Ok([])
  {
    ExampleEmpty();
    ExampleUnknownProtocol();
    ExampleWhitespace();
  }

  lemma ExampleEmpty()
    ensures ParsePorts("") == Ok([])
  {
  }

  /** A comma-free text that does not match is skipped entirely. */
  lemma SkippedElement(v: string)
    requires ',' !in v && MatchElement(v).None?
    ensures ParsePorts(v) == Ok([])
  {
    Text.SplitNoSeparator(v, ',');
    SingleElement(v);
  }

  lemma ExampleUnknownProtocol()
    ensures ParsePorts("80/sctp") == Ok([])
  {
    assert "80/sctp"[3] != '/';
    SkippedElement("80/sctp");
  }

  lemma ExampleWhitespace()
    ensures ParsePorts(" 80/tcp") == Ok([])
  {
    assert " 80/tcp"[..3] == " 80";
    assert !Decimal.IsDigit(" 80"[0]);
    assert !Decimal.AllDigits(" 80/tcp"[..3]);
    SkippedElement(" 80/tcp");
  }

  /** An upper-case protocol token is accepted. */
  lemma ExampleUpperCase()
    ensures ParsePorts("80/TCP") == Ok([TCP(80)])
  {
    ExampleUpperCaseParts();
    ExampleSpellings();
  }

  lemma ExampleUpperCaseParts()
    ensures ParsePorts("80" + "/" + "TCP") == Ok([TCP(80)])
  {
    assert Decimal.Value("80") == 80;
    assert Lower("TCP") == "tcp";
    CaseInsensitive("80", "TCP");
  }

  /** A port past 65535 fails the whole call. */
  lemma ExampleOutOfRange()
    ensures ParsePorts("99999/tcp") == Err(PortOutOfRange("99999"))
  {
    ExampleOutOfRangeParts();
    ExampleSpellings();
  }

  lemma ExampleOutOfRangeParts()
    ensures ParsePorts("99999" + "/" + "tcp") == Err(PortOutOfRange("99999"))
  {
    DigitsOf99999();
    assert Lower("tcp") == "tcp";
    var v := "99999" + "/" + "tcp";
    MatchElementComplete("99999", "tcp");
    ProtocolTokenNoComma("tcp");
    DigitsNoComma("99999");
    Text.SplitNoSeparator(v, ',');
    SingleElement(v);
  }

  /** The digit string "25565" denotes 25565. */
  lemma DigitsOf25565()
    ensures Decimal.Value("25565") == 25565
  {
    assert "25" == "2" + ['5'];
    Decimal.ValueSnoc("2", '5');
    assert "255" == "25" + ['5'];
    Decimal.ValueSnoc("25", '5');
    assert "2556" == "255" + ['6'];
    Decimal.ValueSnoc("255", '6');
    assert "25565" == "2556" + ['5'];
    Decimal.ValueSnoc("2556", '5');
  }

  /** The digit string "34197" denotes 34197. */
  lemma DigitsOf34197()
    ensures Decimal.Value("34197") == 34197
  {
    assert "34" == "3" + ['4'];
    Decimal.ValueSnoc("3", '4');
    assert "341" == "34" + ['1'];
    Decimal.ValueSnoc("34", '1');
    assert "3419" == "341" + ['9'];
    Decimal.ValueSnoc("341", '9');
    assert "34197" == "3419" + ['7'];
    Decimal.ValueSnoc("3419", '7');
  }

  /** The digit string "99999" denotes 99999. */
  lemma DigitsOf99999()
    ensures Decimal.Value("99999") == 99999
  {
    assert "99" == "9" + ['9'];
    Decimal.ValueSnoc("9", '9');
    assert "999" == "99" + ['9'];
    Decimal.ValueSnoc("99", '9');
    assert "9999" == "999" + ['9'];
    Decimal.ValueSnoc("999", '9');
    assert "99999" == "9999" + ['9'];
    Decimal.ValueSnoc("9999", '9');
  }
}

=== FILE: port_sets.dfy ===
/** `PortSet` (src/watcher.rs): one 65536-bit vector per protocol. */
module PortSets {
  import opened Ports

  /** The number of bits in each vector, one per `u16` port. */
  const PortSpace: nat := 0x10000

  /** A vector of `PortSpace` false bits, what `BitVec::repeat(false, 0x10000)`
      builds. */
  function Cleared(n: nat): (bits: seq<bool>)
    ensures |bits| == n
    ensures forall i :: 0 <= i < n ==> !bits[i]
  {
    seq(n, _ => false)
  }

  datatype PortSet = PortSet(tcp: seq<bool>, udp: seq<bool>) {

    /** Both vectors cover the whole port space. */
    predicate Valid() {
      |tcp| == PortSpace && |udp| == PortSpace
    }

    /** The bit for a descriptor, in its protocol's vector. */
    predicate Contains(d: PortInfo)
      requires Valid()
    {
      match d
      case TCP(port) => tcp[port]
      case UDP(port) => udp[port]
    }
  }

  /** `self.<protocol>.set(port, present)`: writes exactly the one bit for
      `d`; the other protocol's vector is untouched. */
  function SetBit(s: PortSet, d: PortInfo, present: bool): (s': PortSet)
    requires s.Valid()
    ensures s'.Valid()
    ensures s'.Contains(d) == present
    ensures forall e :: e != d ==> s'.Contains(e) == s.Contains(e)
    ensures d.TCP? ==> s'.udp == s.udp
    ensures d.UDP? ==> s'.tcp == s.tcp
  {
    match d
    case TCP(port) => s.(tcp := s.tcp[port := present])
    case UDP(port) => s.(udp := s.udp[port := present])
  }

  /** `reset`: every bit of both vectors is cleared, their lengths kept. */
  function Reset(s: PortSet): (s': PortSet)
    ensures |s'.tcp| == |s.tcp| && |s'.udp| == |s.udp|
    ensures forall i :: 0 <= i < |s'.tcp| ==> !s'.tcp[i]
    ensures forall i :: 0 <= i < |s'.udp| ==> !s'.udp[i]
  {
    PortSet(Cleared(|s.tcp|), Cleared(|s.udp|))
  }

  /** `PortSet::default()`: nothing is present. */
  function Default(): (s: PortSet)
    ensures s.Valid()
    ensures forall d :: !s.Contains(d)
  {
    PortSet(Cleared(PortSpace), Cleared(PortSpace))
  }

  /** A set is determined by its bits. */
  lemma {:induction false} Extensionality(a: PortSet, b: PortSet)
    requires a.Valid() && b.Valid()
    requires forall d :: a.Contains(d) == b.Contains(d)
    ensures a == b
  {
    forall i | 0 <= i < PortSpace ensures a.tcp[i] == b.tcp[i] && a.udp[i] == b.udp[i] {
      assert a.Contains(TCP(i)) == b.Contains(TCP(i));
      assert a.Contains(UDP(i)) == b.Contains(UDP(i));
    }
  }

  /** Resetting a valid set gives the default set, so resetting twice is
      the same as resetting once. */
  lemma ResetIsDefault(s: PortSet)
    requires s.Valid()
    ensures Reset(s) == Default()
    ensures Reset(Reset(s)) == Reset(s)
  {
  }

  /** Setting a bit to the value it already has changes nothing. */
  lemma SetUnchanged(s: PortSet, d: PortInfo, present: bool)
    requires s.Valid() && s.Contains(d) == present
    ensures SetBit(s, d, present) == s
  {
  }

  /** Two writes to the same bit: the later one decides. */
  lemma SetSet(s: PortSet, d: PortInfo, first: bool, second: bool)
    requires s.Valid()
    ensures SetBit(SetBit(s, d, first), d, second) == SetBit(s, d, second)
  {
  }
}

=== FILE: ports.dfy ===
/** `PortInfo` and its `Display` rendering (src/watcher.rs). */
module Ports {
  import Decimal
  import Text

  /** Rust's `u16`. */
  type uint16 = x: int | 0 <= x < 0x10000

  /** The two transport protocols the watcher distinguishes. */
  datatype Protocol = Tcp | Udp

  /** A transport port tagged with its protocol. */
  datatype PortInfo = TCP(port: uint16) | UDP(port: uint16) {
    function Protocol(): (p: Protocol) {
      match this
      case TCP(_) => Tcp
      case UDP(_) => Udp
    }
  }

  /** The lower-case protocol name `Display` writes after the slash. */
  function ProtocolName(p: Protocol): (name: string) {
    match p
    case Tcp => "tcp"
    case Udp => "udp"
  }

  /** `Display for PortInfo`: the port in decimal, a slash, the protocol name. */
  function Render(d: PortInfo): (s: string)
    ensures |s| >= 5 && s[|s| - 4] == '/'
    ensures Decimal.AllDigits(s[..|s| - 4]) && Decimal.Value(s[..|s| - 4]) == d.port
    ensures s[|s| - 3..] == ProtocolName(d.Protocol())
    ensures s[0] == '0' ==> d.port == 0 && |s| == 5
  {
    var digits := Decimal.Render(d.port);
    var s := digits + "/" + ProtocolName(d.Protocol());
    assert s[0] == digits[0];
    assert s[..|s| - 4] == digits;
    assert s[|s| - 3..] == ProtocolName(d.Protocol());
    s
  }

  /** The renderings of a list, in order. */
  function RenderEach(ds: seq<PortInfo>): (parts: seq<string>)
    ensures |parts| == |ds|
    ensures forall i :: 0 <= i < |ds| ==> parts[i] == Render(ds[i])
  {
    if |ds| == 0 then [] else [Render(ds[0])] + RenderEach(ds[1..])
  }

  /** The comma-joined rendering of a list, the text format `parse_ports` reads. */
  function RenderList(ds: seq<PortInfo>): (text: string) {
    Text.Join(RenderEach(ds), ',')
  }
}

=== FILE: text.dfy ===
/** Splitting a string on a separator character the way Rust's
    `str::split(char)` does, and the inverse join. */
module Text {

  /** Joins the parts with `sep` between consecutive parts; the empty
      sequence joins to the empty string. */
  function Join(parts: seq<string>, sep: char): (s: string)
  {
    if |parts| == 0 then ""
    else if |parts| == 1 then parts[0]
    else parts[0] + [sep] + Join(parts[1..], sep)
  }

  /** Rust's `s.split(sep)`: every maximal run between separators, including
      empty runs, so that an empty string yields one empty part. */
  function Split(s: string, sep: char): (parts: seq<string>)
    ensures |parts| >= 1
    ensures forall i :: 0 <= i < |parts| ==> sep !in parts[i]
  {
    if |s| == 0 then [""]
    else
      var rest := Split(s[1..], sep);
      if s[0] == sep then [""] + rest
      else [[s[0]] + rest[0]] + rest[1..]
  }

  /** Joining the parts of a split with the separator gives back the text. */
  lemma {:induction false} JoinSplit(s: string, sep: char)
    ensures Join(Split(s, sep), sep) == s
  {
    if |s| > 0 {
      var rest := Split(s[1..], sep);
      JoinSplit(s[1..], sep);
      assert s == [s[0]] + s[1..];
      if s[0] == sep {
        assert ([""] + rest)[1..] == rest;
      } else {
        var parts := [[s[0]] + rest[0]] + rest[1..];
        assert parts[1..] == rest[1..];
        if |rest| > 1 {
          assert Join(rest, sep) == rest[0] + [sep] + Join(rest[1..], sep);
        }
      }
    }
  }

  /** A string free of the separator splits into itself alone. */
  lemma {:induction false} SplitNoSeparator(s: string, sep: char)
    requires sep !in s
    ensures Split(s, sep) == [s]
  {
    if |s| > 0 {
      assert s == [s[0]] + s[1..];
      SplitNoSeparator(s[1..], sep);
    }
  }

  /** A separator-free prefix followed by the separator is split off as one part. */
  lemma {:induction false} SplitAfterPart(a: string, sep: char, b: string)
    requires sep !in a
    ensures Split(a + [sep] + b, sep) == [a] + Split(b, sep)
  {
    var s := a + [sep] + b;
    if |a| == 0 {
      assert s == [sep] + b;
      assert s[1..] == b;
    } else {
      assert a == [a[0]] + a[1..];
      assert s[1..] == a[1..] + [sep] + b;
      SplitAfterPart(a[1..], sep, b);
    }
  }

  /** Splitting undoes joining whenever no part contains the separator. */
  lemma {:induction false} SplitJoin(parts: seq<string>, sep: char)
    requires |parts| >= 1
    requires forall i :: 0 <= i < |parts| ==> sep !in parts[i]
    ensures Split(Join(parts, sep), sep) == parts
  {
    if |parts| == 1 {
      SplitNoSeparator(parts[0], sep);
    } else {
      SplitJoin(parts[1..], sep);
      SplitAfterPart(parts[0], sep, Join(parts[1..], sep));
      assert [parts[0]] + parts[1..] == parts;
    }
  }
}

=== FILE: watcher.dfy ===
/** `PortWatcher` (src/watcher.rs): the watch and reported sets, the
    configuration calls `watch`/`unwatch`, and the edge detection in
    `process_packet`. Time is an integer count of milliseconds. */
module Watcher {
  import opened Wrappers
  import opened Ports
  import opened PortSets
  import Frames

  /** The aggregation window of `PortWatcher::new`, 5.0 seconds, in milliseconds. */
  const DefaultWindow: nat := 5000

  datatype PortWatcher = PortWatcher(
    interface: string,
    watch: PortSet,
    reported: PortSet,
    timestamp: int,
    window: nat)
  {
    predicate Valid() {
      watch.Valid() && reported.Valid()
    }
  }

  /** Every reported port is also watched. `process_packet` keeps this, but
      `unwatch` can break it until the next rollover. */
  ghost predicate ReportedWithinWatch(w: PortWatcher)
    requires w.Valid()
  {
    forall d :: w.reported.Contains(d) ==> w.watch.Contains(d)
  }

  /** `PortWatcher::new`, with the clock reading `now` supplied by the caller. */
  function New(iface: string, now: int): (w: PortWatcher)
    ensures w.Valid()
    ensures w.interface == iface && w.timestamp == now && w.window == DefaultWindow
    ensures forall d :: !w.watch.Contains(d) && !w.reported.Contains(d)
  {
    PortWatcher(iface, Default(), Default(), now, DefaultWindow)
  }

  /** `watch`: sets exactly the watch bit for `d`. */
  function Watch(w: PortWatcher, d: PortInfo): (w': PortWatcher)
    requires w.Valid()
    ensures w'.Valid()
    ensures w'.watch.Contains(d)
    ensures forall e :: e != d ==> w'.watch.Contains(e) == w.watch.Contains(e)
    ensures d.TCP? ==> w'.watch.udp == w.watch.udp
    ensures d.UDP? ==> w'.watch.tcp == w.watch.tcp
    ensures w'.reported == w.reported && w'.timestamp == w.timestamp
    ensures w'.interface == w.interface && w'.window == w.window
  {
    w.(watch := SetBit(w.watch, d, true))
  }

  /** `unwatch`: clears exactly the watch bit for `d`; a reported bit for
      `d` stays as it was. */
  function Unwatch(w: PortWatcher, d: PortInfo): (w': PortWatcher)
    requires w.Valid()
    ensures w'.Valid()
    ensures !w'.watch.Contains(d)
    ensures forall e :: e != d ==> w'.watch.Contains(e) == w.watch.Contains(e)
    ensures d.TCP? ==> w'.watch.udp == w.watch.udp
    ensures d.UDP? ==> w'.watch.tcp == w.watch.tcp
    ensures w'.reported == w.reported && w'.timestamp == w.timestamp
    ensures w'.interface == w.interface && w'.window == w.window
  {
    w.(watch := SetBit(w.watch, d, false))
  }

  /** Watching then unwatching a port that was not watched restores the
      watcher; repeating either call changes nothing more. */
  lemma WatchUnwatchInverse(w: PortWatcher, d: PortInfo)
    requires w.Valid()
    ensures !w.watch.Contains(d) ==> Unwatch(Watch(w, d), d) == w
    ensures w.watch.Contains(d) ==> Watch(Unwatch(w, d), d) == w
    ensures Watch(Watch(w, d), d) == Watch(w, d)
    ensures Unwatch(Unwatch(w, d), d) == Unwatch(w, d)
  {
  }

  /** The check shared by the four transport branches of `process_packet`:
      a watched destination not yet reported is marked reported and
      returned; anything else is ignored. */
  function Report(w: PortWatcher, d: PortInfo): (r: (PortWatcher, Option<PortInfo>))
    requires w.Valid()
    ensures r.0.Valid() && r.0.watch == w.watch && r.0.timestamp == w.timestamp
    ensures r.0.interface == w.interface && r.0.window == w.window
    ensures r.1.Some? <==> w.watch.Contains(d) && !w.reported.Contains(d)
    ensures r.1.Some? ==> r.1.value == d
    ensures r.0.reported.Contains(d) <==> w.reported.Contains(d) || w.watch.Contains(d)
    ensures forall e :: e != d ==> (r.0.reported.Contains(e) <==> w.reported.Contains(e))
    ensures r.1.None? ==> r.0 == w
  {
    if w.watch.Contains(d) && !w.reported.Contains(d) then
      (w.(reported := SetBit(w.reported, d, true)), Some(d))
    else
      (w, None)
  }

  /** Reporting is edge-triggered: right after a destination is reported,
      reporting it again finds it already reported and changes nothing. */
  lemma ReportOnce(w: PortWatcher, d: PortInfo)
    requires w.Valid()
    ensures Report(Report(w, d).0, d) == (Report(w, d).0, None)
    ensures w.watch.Contains(d) && !w.reported.Contains(d) ==> Report(w, d).1 == Some(d)
  {
  }

  /** `process_packet`, branch for branch: Ethernet, then IPv4 or IPv6, then
      TCP or UDP, each layer giving up on a short buffer or an unhandled
      type. Its outcome is stated against the decoder alone: an event is
      returned exactly when the frame decodes to a watched destination whose
      reported bit is clear, and then only that reported bit is set. */
  function ProcessPacket(w: PortWatcher, packet: seq<Frames.byte>): (r: (PortWatcher, Option<PortInfo>))
    requires w.Valid()
    ensures r.0.Valid()
    ensures r.0.watch == w.watch && r.0.timestamp == w.timestamp
    ensures r.0.interface == w.interface && r.0.window == w.window
    ensures r.1.Some? <==>
              && Frames.Decode(packet).Some?
              && w.watch.Contains(Frames.Decode(packet).value)
              && !w.reported.Contains(Frames.Decode(packet).value)
    ensures r.1.Some? ==> r.1 == Frames.Decode(packet) && r.0.reported == SetBit(w.reported, r.1.value, true)
    ensures r.1.None? ==> r.0 == w
  {
    match Frames.ParseEthernet(packet)
    case None => (w, None)
    case Some(ethernet) =>
      if ethernet.etherType == Frames.EtherTypeIpv4 then
        match Frames.ParseIpv4(ethernet.payload)
        case None => (w, None)
        case Some(ipv4) =>
          if ipv4.protocol == Frames.IpProtocolTcp then
            match Frames.TcpDestination(ipv4.payload)
            case None => (w, None)
            case Some(tcp) => Report(w, TCP(tcp))
          else if ipv4.protocol == Frames.IpProtocolUdp then
            match Frames.UdpDestination(ipv4.payload)
            case None => (w, None)
            case Some(udp) => Report(w, UDP(udp))
          else (w, None)
      else if ethernet.etherType == Frames.EtherTypeIpv6 then
        match Frames.ParseIpv6(ethernet.payload)
        case None => (w, None)
        case Some(ipv6) =>
          if ipv6.protocol == Frames.IpProtocolTcp then
            match Frames.TcpDestination(ipv6.payload)
            case None => (w, None)
            case Some(tcp) => Report(w, TCP(tcp))
          else if ipv6.protocol == Frames.IpProtocolUdp then
            match Frames.UdpDestination(ipv6.payload)
            case None => (w, None)
            case Some(udp) => Report(w, UDP(udp))
          else (w, None)
      else (w, None)
  }

  /** Processing a frame keeps every reported port within the watch set. */
  lemma ProcessPacketKeepsReportedWithinWatch(w: PortWatcher, packet: seq<Frames.byte>)
    requires w.Valid() && ReportedWithinWatch(w)
    ensures ReportedWithinWatch(ProcessPacket(w, packet).0)
  {
  }

  /** `watch` keeps every reported port within the watch set too. */
  lemma WatchKeepsReportedWithinWatch(w: PortWatcher, d: PortInfo)
    requires w.Valid() && ReportedWithinWatch(w)
    ensures ReportedWithinWatch(Watch(w, d))
  {
  }

  /** `unwatch` does not: a port reported in the current window stays
      reported after it is unwatched, until the next rollover. */
  lemma UnwatchLeavesStaleReport(w: PortWatcher, d: PortInfo)
    requires w.Valid() && w.reported.Contains(d)
    ensures Unwatch(w, d).reported.Contains(d)
    ensures !ReportedWithinWatch(Unwatch(w, d))
  {
  }

  /** A watcher that watched port 80/tcp, saw a frame for it, and then
      unwatched it, still holds the stale reported bit. */
  lemma StaleReportExample(now: int)
    ensures var w0 := Watch(New("eth0", now), TCP(80));
            var r := ProcessPacket(w0, Frames.BuildFrame(Frames.V4, 40000, TCP(80)));
            && r.1 == Some(TCP(80))
            && !ReportedWithinWatch(Unwatch(r.0, TCP(80)))
  {
    Frames.DecodeBuiltFrame(Frames.V4, 40000, TCP(80));
    var w0 := Watch(New("eth0", now), TCP(80));
    assert !w0.reported.Contains(TCP(80));
  }
}

=== FILE: wrappers.dfy ===
/** Option and Result, the two failure-carrying shapes the watcher's Rust
    code uses (`Option<PortInfo>` and `Result<Vec<PortInfo>, _>`). */
module Wrappers {

  datatype Option<+T> = None | Some(value: T)

  datatype Result<+T, +E> = Ok(value: T) | Err(error: E)
}
